=== FILE: README.md ===
# Portfolio generator model

A Dafny model of the portfolio generator of buildfolio (`src/utils/generatePortfolio.js`).
The generator takes the record filled in by the clone dialog: a name, tagline, contact
details, social handles, a list of projects and a comma-separated list of skills. From it,
it writes the fourteen files of a React project into a zip archive named after the owner.

The model covers the part of the generator that is string and list processing:

- the slug of the owner's name, which names both the npm package and the archive;
- the cleaning of projects: rows without a title are dropped, the `tech` text is split
  into a list, and each project gets an image and a colour by its position;
- the fallback text for an empty project list, and the carousel's index arithmetic;
- the cleaning of skills, with meters for the first six;
- the optional contact lines of the Contact section and the README;
- the folders, the file layout, the archive's table of contents and its name.

A generated file is represented by the part of its text that depends on the form, one
datatype variant per file (`Portfolio.FileBody`). The fixed JSX, CSS and Markdown around
those parts is not represented.

Modules:

- `Strings`: JavaScript's `\s`, `trim`, `split` on one character, `join`, and `toLowerCase`.
- `Seqs`: `filter`, the length of `slice(0, 6)` as the smaller of two lengths, and a map built from key/value pairs.
- `Arith`: uniqueness of Euclidean remainders.
- `Slug`: the slug, the package name and the archive name.
- `Decimal`: decimal spelling of the image index.
- `Carousel`: next/previous index arithmetic.
- `Form`: the form record.
- `Projects`, `Skills`, `Contact`, `Readme`: the four sections that depend on the form.
- `Portfolio`: the whole run.

JavaScript details that are modelled explicitly:

- `%` truncates toward zero (`Carousel.JsRemainder`).
- A string is truthy exactly when it is non-empty (`Form.Truthy`).
- `split` keeps empty pieces.
- `Math.random()` is the parameter `draw: nat -> Fraction`. `draw(i)` is the value returned
  by the `i`-th call, and `Fraction` holds the reals in `[0, 1)`.

Behaviour of the code worth noting:

- Projects are kept when their raw `title` is non-empty. The title is not trimmed, so a
  title made only of blanks survives (generatePortfolio.js:290).
- The items of a project's `tech` list are trimmed, but empty items are kept
  (generatePortfolio.js:308). Only skills drop empty items (generatePortfolio.js:419).
- The hero words come from splitting the name at single spaces only. Two spaces in a row
  give an empty word, and a tab does not split (generatePortfolio.js:97).
- The README lists the GitHub and LinkedIn handles when they are set, and never the
  Twitter handle (generatePortfolio.js:687-689).
- The regular expression `\s+` also matches blanks at the two ends of the name, so a name
  with leading or trailing blanks gets a slug that starts or ends with `-`.

## Model

| member | source | states |
|---|---|---|
| Strings.Trim | src/utils/generatePortfolio.js:308 | `trim` returns the unique string with no white space at either end that is left after cutting white space off both ends. It is empty exactly when the input is all white space, it leaves a trimmed string alone, and it adds no character. |
| Strings.Split | src/utils/generatePortfolio.js:419 | `split(',')` gives one more part than the input has separators. No part contains the separator, and joining the parts with it gives back the input. |
| Strings.SplitOfJoin | src/utils/generatePortfolio.js:308 | Splitting a join of separator-free parts gives back the parts. |
| Strings.SplitAtFirstSeparator | src/utils/generatePortfolio.js:419 | A separator right after a separator-free prefix ends the first part. |
| Strings.SplitWithoutSeparator | src/utils/generatePortfolio.js:97 | A string without the separator splits into itself alone. |
| Strings.LowerChar | src/utils/generatePortfolio.js:43 | `toLowerCase` on one character turns an A-Z or Latin-1 capital into its small letter, 32 code points further on, and leaves every other character unchanged. White space stays white space, and the result is never such a capital. |
| Strings.ToLower | src/utils/generatePortfolio.js:43 | `toLowerCase` keeps the length, lowers every A-Z or Latin-1 capital and leaves every other character in place, so the result holds no such capital. |
| Strings.ToLowerKeepsWhitespace | src/utils/generatePortfolio.js:43 | Lower-casing neither adds nor removes white space. |
| Strings.ToLowerIdempotent | src/utils/generatePortfolio.js:43 | Lower-casing twice is the same as lower-casing once. |
| Strings.TrimAllOfTrimmed | src/utils/generatePortfolio.js:308 | `map(t => t.trim())` leaves already-trimmed items alone. |
| Strings.TrimAll | src/utils/generatePortfolio.js:308 | `map(t => t.trim())` gives one item per input item, and item `i` is the trimmed form of input `i`. |
| Strings.TrimAllCons | src/utils/generatePortfolio.js:308 | Trimming a list trims its head and then its tail. |
| Strings.TrimAllKeepsOut | src/utils/generatePortfolio.js:308 | Trimming introduces no character, so comma-free pieces stay comma-free. |
| Seqs.Filter | src/utils/generatePortfolio.js:290 | `filter` keeps only accepted elements, drops no accepted element, and is never longer than its input. |
| Seqs.FilterAppend | src/utils/generatePortfolio.js:290 | Filtering distributes over concatenation, so relative order is kept. |
| Seqs.FilterKeepsAll | src/utils/generatePortfolio.js:419 | A filter that accepts every element keeps the whole list. |
| Seqs.FilterKeepsNone | src/utils/generatePortfolio.js:290 | A filter that accepts nothing keeps nothing. |
| Seqs.MapOf | src/utils/generatePortfolio.js:12-39 | Adding key/value pairs one after another gives a map whose keys are exactly the added keys. |
| Seqs.MapOfDistinct | src/utils/generatePortfolio.js:12-39 | Adding files with pairwise-different paths gives one entry per file, each holding its own content. |
| Slug.ReplaceWhitespaceRuns | src/utils/generatePortfolio.js:43 | `replace(/\s+/g, '-')` never lengthens the text. |
| Slug.ReplaceRemovesWhitespace | src/utils/generatePortfolio.js:43 | With a separator that is not white space, the result holds no white space. |
| Slug.ReplaceWithoutWhitespace | src/utils/generatePortfolio.js:43 | Text without white space is left unchanged. |
| Slug.ReplaceAppend | src/utils/generatePortfolio.js:43 | Replacing runs distributes over a concatenation that does not cut a run in two. |
| Slug.Slugify | src/utils/generatePortfolio.js:43 | The slug contains no white space, and it has no more characters than the name. |
| Slug.SlugOfRun | src/utils/generatePortfolio.js:43 | A maximal white-space run of any length and kind between two parts becomes exactly one `-` between their slugs. |
| Slug.SlugOfThreeWords | src/utils/generatePortfolio.js:43 | Three words without white space joined by single spaces give their lower-cased forms joined by `-`. |
| Slug.SlugOfWord | src/utils/generatePortfolio.js:163 | A name without white space is only lower-cased, so punctuation is kept. |
| Slug.SlugIdempotent | src/utils/generatePortfolio.js:43 | Slugifying a slug changes nothing. |
| Slug.JaneExample | src/utils/generatePortfolio.js:43 | "Jane Q. Public" gives "jane-q.-public". |
| Slug.PackageName | src/utils/generatePortfolio.js:163 | The package name contains no white space. |
| Slug.ArchiveName | src/utils/generatePortfolio.js:43 | The archive name is the package name followed by `.zip`, even though the two are computed separately. |
| Decimal.NatToDecimal | src/utils/generatePortfolio.js:309 | `${i}` is a non-empty string of digits with no leading zero that reads back as `i`. |
| Decimal.NatToDecimalInjective | src/utils/generatePortfolio.js:309 | Different indices are spelled differently. |
| Carousel.JsRemainder | src/utils/generatePortfolio.js:314 | JavaScript `%` lies strictly between `-n` and `n`, has the sign of the dividend, and differs from the dividend by a multiple of `n`. It agrees with the Euclidean remainder for a non-negative dividend. |
| Carousel.NextIndex | src/utils/generatePortfolio.js:313-315 | `(prev + 1) % n` stays in `[0, n)`. It moves one forward and wraps from the last project to the first. |
| Carousel.PrevIndex | src/utils/generatePortfolio.js:317-319 | `(prev - 1 + n) % n` stays in `[0, n)`. It moves one back and wraps from the first project to the last. |
| Carousel.Step | src/utils/generatePortfolio.js:313-319 | One click keeps the index in `[0, n)`, and the new index is the old one plus one (next) or minus one (previous), taken modulo `n`. |
| Carousel.PrevUndoesNext | src/utils/generatePortfolio.js:313-319 | Previous after next returns to the starting project. |
| Carousel.NextUndoesPrev | src/utils/generatePortfolio.js:313-319 | Next after previous returns to the starting project. |
| Carousel.SingleProjectIsFixed | src/utils/generatePortfolio.js:394 | With one project both buttons would leave the index at 0, which is why they are rendered only for more than one project. |
| Carousel.Browse | src/utils/generatePortfolio.js:304 | From `useState(0)`, every sequence of clicks keeps the shown index valid for `projects[currentProject]`. |
| Carousel.Net | src/utils/generatePortfolio.js:313-319 | The net movement is the number of forward clicks minus the number of back clicks. |
| Carousel.BrowsePosition | src/utils/generatePortfolio.js:304-319 | After any clicks, the shown index is that net movement taken modulo the number of projects. |
| Projects.Titled | src/utils/generatePortfolio.js:290 | The surviving rows all have a non-empty raw title, come from the input, and include every input row whose title is non-empty. |
| Projects.NoneTitledIffEmpty | src/utils/generatePortfolio.js:290 | No row survives exactly when no row has a title. |
| Projects.SurvivorPosition | src/utils/generatePortfolio.js:290 | A titled row survives at the position given by the number of titled rows before it. |
| Projects.SurvivorsInOrder | src/utils/generatePortfolio.js:290 | An earlier titled row gets an earlier position. |
| Projects.TechList | src/utils/generatePortfolio.js:308 | The tech list has one more item than `tech` has commas. Every item is trimmed and comma-free. |
| Projects.TechListOfJoin | src/utils/generatePortfolio.js:308 | Each comma-separated piece gives its trimmed self. A blank piece becomes an empty item and is not dropped. |
| Projects.TechListRoundTrip | src/utils/generatePortfolio.js:308 | Trimmed comma-free items joined with commas split back into the same items. |
| Projects.ImageUrl | src/utils/generatePortfolio.js:309 | The image address is the fixed Unsplash prefix followed by the decimal spelling of the index, with no leading zero, so `${i}` reads back as `i`. |
| Projects.NormalizeProjects | src/utils/generatePortfolio.js:306-311 | There is one project per surviving row, each titled. Project `i` gets image `i` and colour `palette[i % 3]`. |
| Projects.ProjectOfRow | src/utils/generatePortfolio.js:290-311 | Titled row `j` becomes the project numbered by its survivor position, so image and colour numbering runs from 0 with no gaps. |
| Projects.ImagesDistinct | src/utils/generatePortfolio.js:309 | Different projects get different images. |
| Projects.ColorsCycle | src/utils/generatePortfolio.js:310 | Colours repeat with period three, and neighbouring projects differ in colour. |
| Projects.PaletteCycle | src/utils/generatePortfolio.js:310 | `palette[i % 3]` has period three, and neighbouring entries differ. |
| Projects.ProjectsContent | src/utils/generatePortfolio.js:333-411 | The section shows the fixed "No projects added yet." text exactly when no row has a title. Otherwise it shows the carousel, with navigation exactly when more than one project survives. |
| Projects.CardLinks | src/utils/generatePortfolio.js:371-388 | The shown card has a Code button exactly when the project's GitHub address is set, and a Live Demo button exactly when its link is set, in that order. There are at most two buttons, and no other kind. |
| Skills.SkillTokens | src/utils/generatePortfolio.js:419 | Skills are non-empty, trimmed and comma-free, and there are at most one more of them than there are commas. |
| Skills.SkillTokensOfJoin | src/utils/generatePortfolio.js:419 | The skills of comma-joined pieces are the trimmed pieces that are not blank, in order. |
| Skills.SkillTokensRoundTrip | src/utils/generatePortfolio.js:419 | Non-empty trimmed comma-free skills joined with commas read back as the same skills. |
| Skills.BlankPieceDropped | src/utils/generatePortfolio.js:419 | A blank piece before a comma contributes no skill. |
| Skills.Level | src/utils/generatePortfolio.js:435 | For a real draw in `[0, 1)`, `75 + Math.random() * 20` lies in `[75, 95)`. |
| Skills.MeterAt | src/utils/generatePortfolio.js:433-437 | Meter `i` keeps the skill name, has a level in `[75, 95)`, and gets category `i`. |
| Skills.Meter | src/utils/generatePortfolio.js:433-437 | There are `min(6, count)` meters. Meter `i` is skill `i`, with a level in `[75, 95)` and the `i`-th category. |
| Skills.MeterCategoriesDistinct | src/utils/generatePortfolio.js:436 | No two meters share a category. |
| Skills.SkillsContent | src/utils/generatePortfolio.js:419-482 | The tag list is the full skill list. The meters are its first `min(6, count)` skills, in order. |
| Skills.OnlyLevelsVary | src/utils/generatePortfolio.js:433-437 | Two runs on the same text differ only in the meter levels. |
| Contact.SocialLinks | src/utils/generatePortfolio.js:516-520 | A network's link is present exactly when its handle is non-empty. Each link points at its handle, and the links come in GitHub, LinkedIn, Twitter order. |
| Contact.ContactInfo | src/utils/generatePortfolio.js:522-526 | The address always comes first. The phone and the location are present exactly when set, non-empty, and in that order. |
| Contact.ContactContent | src/utils/generatePortfolio.js:512-526 | The message form mails the owner's address, and the address is the first contact detail. Every rendered link has a non-empty address, and every detail after the first is non-empty, so no empty field is rendered. |
| Contact.AllSocialLinks | src/utils/generatePortfolio.js:516-520 | With every network set, the section has three links, GitHub first and Twitter last. |
| Contact.ContactIgnoresOtherFields | src/utils/generatePortfolio.js:490-526 | The section depends only on the address, phone, location and the three handles. |
| Readme.ReadmeContent | src/utils/generatePortfolio.js:634-695 | The README names the owner and always lists the address. It has a GitHub line exactly when the GitHub handle is set, and a LinkedIn line exactly when the LinkedIn handle is set. |
| Readme.ReadmeIgnoresTwitter | src/utils/generatePortfolio.js:686-689 | The Twitter handle, the phone and the location never reach the README. |
| Portfolio.FolderSegments | src/utils/generatePortfolio.js:8-10 | The root has no segment. The created folders are exactly `src`, `src/components` and `src/utils`, and each lies under `src`. |
| Portfolio.HeroWords | src/utils/generatePortfolio.js:97 | `name.split(' ')` gives one more word than the name has spaces. The words hold no space, and joining them with spaces gives back the name. |
| Portfolio.HeroWordsDoubleSpace | src/utils/generatePortfolio.js:97 | Two spaces in a row produce an empty word. |
| Portfolio.Zip | src/utils/generatePortfolio.js:12-39 | File `i` pairs path `i` with content `i`. |
| Portfolio.OutputFiles | src/utils/generatePortfolio.js:12-39 | One run writes as many files as the layout names. |
| Portfolio.BodiesFit | src/utils/generatePortfolio.js:14-39 | Each position of the write order carries the content that its file name calls for: `Hero.jsx` the hero words and tagline, `About.jsx` the about text, `Projects.jsx` the projects section, and so on for all fourteen files. |
| Portfolio.FileContents | src/utils/generatePortfolio.js:12-39 | File `i` of a run is written at layout path `i`, with the content its file name calls for, computed from the form. |
| Portfolio.LayoutDistinct | src/utils/generatePortfolio.js:12-39 | The layout names fourteen pairwise-different paths. |
| Portfolio.LayoutFolders | src/utils/generatePortfolio.js:8-39 | Every file sits in the root or in a created folder, and `src/utils` is created but receives no file. |
| Portfolio.LayoutComponents | src/utils/generatePortfolio.js:14-39 | Exactly nine files go to `src/components`. The root holds exactly `package.json` and `README.md`. |
| Portfolio.NameHasNoSlash | src/utils/generatePortfolio.js:12-39 | No file name contains `/`, so each is exactly one segment of its path. |
| Portfolio.NameTextInjective | src/utils/generatePortfolio.js:12-39 | Different files have different names. |
| Portfolio.PathText | src/utils/generatePortfolio.js:12-39 | Splitting a spelled path at `/` gives back its folder segments followed by the file name. |
| Portfolio.PathTextInjective | src/utils/generatePortfolio.js:12-39 | Different paths are spelled differently, so no file overwrites another in the archive. |
| Portfolio.Archive | src/utils/generatePortfolio.js:12-39 | The archive's file entries are keyed by exactly the spelled paths of the files. |
| Portfolio.ArchiveLookup | src/utils/generatePortfolio.js:12-39 | With distinct paths, the archive has one entry per file, and each path maps to that file's content. |
| Portfolio.ArchiveOfRun | src/utils/generatePortfolio.js:12-42 | The archive of a run has fourteen file entries, each file found at its layout path. |
| Portfolio.PackageFile | src/utils/generatePortfolio.js:30 | The root's `package.json` carries the package name derived from the owner's name. |
| Portfolio.GeneratePortfolio | src/utils/generatePortfolio.js:4-44 | A run creates the three folders and writes fourteen files. It saves the archive under the package name plus `.zip`, which holds no white space. |
| Portfolio.ArchiveNamedAfterPackage | src/utils/generatePortfolio.js:43 | The archive name is the `package.json` package name plus `.zip`. |

## Left out

- The packing of the archive by JSZip and the download by `saveAs` (generatePortfolio.js:41-43) are not modelled. They are asynchronous calls into libraries. The model stops at the table of contents (`Portfolio.Archive`) and the file name.
- `Math.random()` is not modelled; each value it returns is a parameter in `[0, 1)`. The level is a mathematical real, not a double.
- The fixed JSX, CSS, Markdown and JSON text, and the `JSON.stringify` layout, are not modelled. So are the static components (Navbar, CustomCursor, ScrollProgress, ThreeBackground, index.css, main.jsx), which appear only as tags.
- Escaping is not modelled. The generator pastes user text into string literals and JSX without escaping, so the generated files need not be well formed, and nothing is claimed about them.
- Slug.Slugify: the length bound counts characters under the modelled lower-casing, which keeps length. JavaScript counts UTF-16 units, and its full `toLowerCase` can lengthen a string (U+0130 becomes two units), so the bound is not promised for such names.
- Strings.LowerChar: lower-cases only A-Z and the Latin-1 capitals U+00C0-U+00DE, leaving out U+00D7. Full Unicode case mapping is not modelled, including letters whose lower case has a different length.
- Strings.ToLower: lowers only the capitals `Strings.LowerChar` lowers. JavaScript's `toLowerCase` also lowers other Unicode capitals, such as U+03A9 (Ω) to U+03C9 (ω) and U+0100 (Ā) to U+0101 (ā), which the model leaves unchanged. `Slug.Slugify` and the slugs, package and archive names built from it inherit this, for example for the name "Ωmega".
- The second `filter(Boolean)` inside the generated component's runtime is not modelled separately. Elements that are left out are never emitted, so that filter has nothing to drop.
- Carousel.JsRemainder: requires a positive divisor, which `projects.length` is wherever the carousel is rendered. The negative-divisor case of `%` is not modelled.
- The directory entries `src/`, `src/components/` and `src/utils/` that JSZip's `folder()` adds (generatePortfolio.js:8-10) are not keys of `Portfolio.Archive`. The archive holds them in addition to the fourteen file entries. The model records the folders in `Portfolio.Output` instead.
- Slug.PackageName: its contract states only that there is no white space. Its relation to the archive name is stated by `Slug.ArchiveName`.
- The loading message (generatePortfolio.js:76), the hero tagline (130) and the about text (251) are carried verbatim in `Portfolio.FileBody`, and nothing more is stated about them.
- The resume field of the form and the rest of the dialog's user-interface code are not modelled. The generator never reads them.
- The rounding of the displayed level (`Math.round`, generatePortfolio.js:472) is not modelled, because levels are reals.

=== FILE: arith.dfy ===
/** Facts about Euclidean division that the index arithmetic relies on. */
module Arith {

  lemma ModOfMultiple(q: int, n: int)
    requires n > 0
    ensures (q * n) % n == 0
  {
    ModUnique(q * n, n, q, 0);
  }

  /** The remainder is the unique `r` in `[0, n)` with `a == q * n + r`. */
  lemma ModUnique(a: int, n: int, q: int, r: int)
    requires n > 0 && 0 <= r < n && a == q * n + r
    ensures a % n == r
  {
    var q', r' := a / n, a % n;
    assert a == q' * n + r';
    assert (q - q') * n == r' - r;
    if q > q' {
      assert (q - q') * n >= n by { MulAtLeast(q - q', n); }
    } else if q < q' {
      assert (q' - q) * n >= n by { MulAtLeast(q' - q, n); }
    }
  }

  lemma MulAtLeast(k: int, n: int)
    requires k >= 1 && n > 0
    ensures k * n >= n
  {
  }
}

=== FILE: carousel.dfy ===
/** The project carousel of the generated Projects component
    (src/utils/generatePortfolio.js, lines 304 and 313-319): the shown project is
    an index into the project list, moved by `nextProject` and `prevProject`. */
module Carousel {
  import opened Arith

  /** JavaScript's `a % n`: truncating division, so the remainder has the sign of `a`. */
  function JsRemainder(a: int, n: int): (r: int)
    requires n > 0
    ensures -n < r < n
    ensures a >= 0 ==> 0 <= r
    ensures a <= 0 ==> r <= 0
    ensures a >= 0 ==> r == a % n
    ensures (a - r) % n == 0
  {
    if a >= 0 then
      assert a - a % n == (a / n) * n;
      ModOfMultiple(a / n, n);
      a % n
    else
      assert a + (-a) % n == -((-a) / n) * n;
      ModOfMultiple(-((-a) / n), n);
      -((-a) % n)
  }

  /** `(prev + 1) % projects.length`. */
  function NextIndex(prev: int, n: int): (next: int)
    requires 0 <= prev < n
    ensures 0 <= next < n
    ensures next == if prev + 1 == n then 0 else prev + 1
  {
    JsRemainder(prev + 1, n)
  }

  /** `(prev - 1 + projects.length) % projects.length`. */
  function PrevIndex(prev: int, n: int): (before: int)
    requires 0 <= prev < n
    ensures 0 <= before < n
    ensures before == if prev == 0 then n - 1 else prev - 1
  {
    JsRemainder(prev - 1 + n, n)
  }

  datatype Click = NextClick | PrevClick

  /** One click: the index moves one place forward or back, wrapping around the
      `n` projects. */
  function Step(current: int, n: int, click: Click): (after: int)
    requires 0 <= current < n
    ensures 0 <= after < n
    ensures after == (current + Delta(click)) % n
  {
    ModUnique(current, n, 0, current);
    ModStep(current, n, Delta(click));
    match click
    case NextClick => NextIndex(current, n)
    case PrevClick => PrevIndex(current, n)
  }

  /** How far a click moves the index. */
  function Delta(click: Click): int {
    if click == NextClick then 1 else -1
  }

  /** The index shown after a sequence of clicks, starting from `useState(0)`. */
  function Browse(n: int, clicks: seq<Click>): (current: int)
    requires n > 0
    ensures 0 <= current < n
  {
    if clicks == [] then 0
    else Step(Browse(n, clicks[..|clicks| - 1]), n, clicks[|clicks| - 1])
  }

  // Lemmas

  /** Going back undoes going forward. */
  lemma PrevUndoesNext(prev: int, n: int)
    requires 0 <= prev < n
    ensures PrevIndex(NextIndex(prev, n), n) == prev
  {
  }

  /** Going forward undoes going back. */
  lemma NextUndoesPrev(prev: int, n: int)
    requires 0 <= prev < n
    ensures NextIndex(PrevIndex(prev, n), n) == prev
  {
  }

  /** With one project both buttons would leave the index where it is, which is
      why the generated component renders them only for more than one project. */
  lemma SingleProjectIsFixed()
    ensures NextIndex(0, 1) == 0 && PrevIndex(0, 1) == 0
  {
  }

  /** Forward clicks minus back clicks. */
  function Net(clicks: seq<Click>): (net: int)
    ensures net == multiset(clicks)[NextClick] as int - multiset(clicks)[PrevClick] as int
  {
    if clicks == [] then 0
    else
      var init, last := clicks[..|clicks| - 1], clicks[|clicks| - 1];
      assert clicks == init + [last];
      assert multiset(clicks) == multiset(init) + multiset{last};
      Net(init) + Delta(last)
  }

  /** The shown index is the number of forward clicks minus the number of back
      clicks, wrapped into `[0, n)`. */
  lemma {:induction false} BrowsePosition(n: int, clicks: seq<Click>)
    requires n > 0
    ensures Browse(n, clicks) == Net(clicks) % n
  {
    if clicks != [] {
      var init, last := clicks[..|clicks| - 1], clicks[|clicks| - 1];
      BrowsePosition(n, init);
      var k := Delta(last);
      assert Net(clicks) == Net(init) + k;
      ModStep(Net(init), n, k);
    }
  }

  /** Moving one step from `d % n` lands on `(d + k) % n`. */
  lemma ModStep(d: int, n: int, k: int)
    requires n > 0 && (k == 1 || k == -1)
    ensures var c := d % n; (if k == 1 then (if c + 1 == n then 0 else c + 1)
                             else (if c == 0 then n - 1 else c - 1)) == (d + k) % n
  {
    var c := d % n;
    var q := d / n;
    assert d == q * n + c;
    if k == 1 {
      if c + 1 == n {
        assert d + 1 == (q + 1) * n;
        ModOfMultiple(q + 1, n);
      } else {
        ModUnique(d + 1, n, q, c + 1);
      }
    } else {
      if c == 0 {
        assert d - 1 == (q - 1) * n + (n - 1);
        ModUnique(d - 1, n, q - 1, n - 1);
      } else {
        ModUnique(d - 1, n, q, c - 1);
      }
    }
  }
}

=== FILE: contact.dfy ===
/** The Contact section (src/utils/generatePortfolio.js, lines 490-632): a mail
    link to the owner's address, the social links that are filled in, and the
    contact details, the address always and the others only when set. */
module Contact {
  import opened Form

  datatype Network = GitHub | LinkedIn | Twitter

  datatype SocialLink = SocialLink(network: Network, href: string)

  datatype InfoKind = Mail | Phone | Location

  datatype InfoItem = InfoItem(kind: InfoKind, text: string)

  /** The generated Contact component: where the message form mails to, the
      `socialLinks` array and the `contactInfo` array. */
  datatype ContactFile = ContactFile(mailTo: string, socialLinks: seq<SocialLink>, contactInfo: seq<InfoItem>)

  /** The position of a network in the `socialLinks` array literal. */
  function NetworkRank(n: Network): nat {
    match n
    case GitHub => 0
    case LinkedIn => 1
    case Twitter => 2
  }

  /** The position of a detail in the `contactInfo` array literal. */
  function InfoRank(k: InfoKind): nat {
    match k
    case Mail => 0
    case Phone => 1
    case Location => 2
  }

  /** The form field that holds the owner's address on a network. */
  function Handle(form: FormData, n: Network): string {
    match n
    case GitHub => form.github
    case LinkedIn => form.linkedin
    case Twitter => form.twitter
  }

  /** The form field that holds a contact detail. */
  function Detail(form: FormData, k: InfoKind): string {
    match k
    case Mail => form.email
    case Phone => form.phone
    case Location => form.location
  }

  /** `[x]` when `present`, otherwise nothing (an element written as `cond ? x : ''`). */
  function Optional<T>(present: bool, x: T): (xs: seq<T>)
    ensures present ==> xs == [x]
    ensures !present ==> xs == []
  {
    if present then [x] else []
  }

  /** `socialLinks`: one link per filled-in network, in the order GitHub, LinkedIn,
      Twitter. */
  function SocialLinks(form: FormData): (links: seq<SocialLink>)
    ensures forall n: Network :: SocialLink(n, Handle(form, n)) in links <==> Truthy(Handle(form, n))
    ensures forall i :: 0 <= i < |links| ==> links[i].href == Handle(form, links[i].network) && links[i].href != []
    ensures forall i, j :: 0 <= i < j < |links| ==> NetworkRank(links[i].network) < NetworkRank(links[j].network)
  {
    Optional(Truthy(form.github), SocialLink(GitHub, form.github))
    + Optional(Truthy(form.linkedin), SocialLink(LinkedIn, form.linkedin))
    + Optional(Truthy(form.twitter), SocialLink(Twitter, form.twitter))
  }

  /** `contactInfo`: the address first and always, then the phone and the
      location when they are set. */
  function ContactInfo(form: FormData): (items: seq<InfoItem>)
    ensures |items| >= 1 && items[0] == InfoItem(Mail, form.email)
    ensures forall k: InfoKind :: k != Mail ==> (InfoItem(k, Detail(form, k)) in items <==> Truthy(Detail(form, k)))
    ensures forall i :: 0 <= i < |items| ==> items[i].text == Detail(form, items[i].kind)
    ensures forall i :: 1 <= i < |items| ==> items[i].text != []
    ensures forall i, j :: 0 <= i < j < |items| ==> InfoRank(items[i].kind) < InfoRank(items[j].kind)
  {
    [InfoItem(Mail, form.email)]
    + Optional(Truthy(form.phone), InfoItem(Phone, form.phone))
    + Optional(Truthy(form.location), InfoItem(Location, form.location))
  }

  /** The section for a form: the message form mails the owner's address, the
      address is the first detail, and no link or detail is rendered for a field
      left empty. */
  function ContactContent(form: FormData): (file: ContactFile)
    ensures file.mailTo == form.email
    ensures |file.contactInfo| >= 1 && file.contactInfo[0] == InfoItem(Mail, form.email)
    ensures forall k :: 0 <= k < |file.socialLinks| ==> file.socialLinks[k].href != []
    ensures forall i :: 1 <= i < |file.contactInfo| ==> file.contactInfo[i].text != []
  {
    ContactFile(form.email, SocialLinks(form), ContactInfo(form))
  }

  // Lemmas

  /** With every network filled in, all three links appear in array order. */
  lemma AllSocialLinks(form: FormData)
    requires Truthy(form.github) && Truthy(form.linkedin) && Truthy(form.twitter)
    ensures |SocialLinks(form)| == 3
    ensures SocialLinks(form)[0].network == GitHub && SocialLinks(form)[2].network == Twitter
  {
  }

  /** The section depends on no field but the address, the networks, the phone
      and the location. */
  lemma ContactIgnoresOtherFields(form: FormData, other: FormData)
    requires other.email == form.email && other.phone == form.phone && other.location == form.location
    requires other.github == form.github && other.linkedin == form.linkedin && other.twitter == form.twitter
    ensures ContactContent(other) == ContactContent(form)
  {
  }
}

=== FILE: decimal.dfy ===
/** Decimal rendering of non-negative integers, as a JavaScript template literal
    renders the project index in `...&sig=${i}`. */
module Decimal {

  predicate IsDigit(c: char) {
    '0' <= c <= '9'
  }

  predicate AllDigits(s: string) {
    forall i :: 0 <= i < |s| ==> IsDigit(s[i])
  }

  function DigitChar(d: nat): (c: char)
    requires d < 10
    ensures IsDigit(c)
    ensures c as int - '0' as int == d
  {
    ('0' as int + d) as char
  }

  /** The value of a string of decimal digits. */
  function ParseDecimal(s: string): nat
    requires AllDigits(s)
  {
    if s == [] then 0
    else 10 * ParseDecimal(s[..|s| - 1]) + (s[|s| - 1] as int - '0' as int)
  }

  /** `String(n)`: the shortest decimal spelling of `n`, which reads back as `n`. */
  function NatToDecimal(n: nat): (s: string)
    ensures |s| >= 1 && AllDigits(s)
    ensures s[0] == '0' ==> n == 0 && s == "0"
    ensures ParseDecimal(s) == n
  {
    if n < 10 then [DigitChar(n)]
    else
      var s := NatToDecimal(n / 10) + [DigitChar(n % 10)];
      assert s[..|s| - 1] == NatToDecimal(n / 10);
      s
  }

  /** Distinct numbers are spelled differently. */
  lemma NatToDecimalInjective(a: nat, b: nat)
    requires NatToDecimal(a) == NatToDecimal(b)
    ensures a == b
  {
  }
}

=== FILE: form.dfy ===
/** The form record the clone dialog collects and hands to the generator
    (src/components/CloneModal.jsx, lines 8-21). Every field is text; the
    generator tests a field with JavaScript truthiness, under which a string is
    true exactly when it is non-empty. */
module Form {

  /** One row of the projects part of the form; `tech` is a comma-separated list. */
  datatype ProjectEntry = ProjectEntry(
    title: string,
    description: string,
    tech: string,
    link: string,
    github: string)

  datatype FormData = FormData(
    name: string,
    title: string,
    email: string,
    phone: string,
    location: string,
    about: string,
    github: string,
    linkedin: string,
    twitter: string,
    projects: seq<ProjectEntry>,
    skills: string)

  /** JavaScript truthiness of a string: only the empty string is falsy. */
  predicate Truthy(s: string) {
    s != []
  }
}

=== FILE: portfolio.dfy ===
/** The generator's entry point (src/utils/generatePortfolio.js, lines 4-44): the
    folders it creates, the fourteen files it writes into them, and the name of
    the archive it downloads. A file's text is represented by the parts of it
    that depend on the form; the fixed template text around them is left
    abstract. */
module Portfolio {
  import opened Strings
  import opened Seqs
  import opened Slug
  import opened Form
  import opened Projects
  import opened Skills
  import opened Contact
  import opened Readme

  /** The folders of the generated project. */
  datatype Folder = Root | Src | Components | Utils

  /** The names of the files written. */
  datatype FileName =
    | AppJsx | HeroJsx | AboutJsx | ProjectsJsx | SkillsJsx | ContactJsx
    | NavbarJsx | CustomCursorJsx | ScrollProgressJsx | ThreeBackgroundJsx
    | PackageJson | ReadmeMd | IndexCss | MainJsx

  /** Where a file is written: a folder and a name in it. */
  datatype FilePath = FilePath(folder: Folder, name: FileName)

  /** The files whose text does not depend on the form. */
  datatype StaticPart =
    | NavbarComponent
    | CustomCursorComponent
    | ScrollProgressComponent
    | ThreeBackgroundComponent
    | Stylesheet
    | EntryPoint

  /** The form-dependent content of each generated file. */
  datatype FileBody =
    | AppShell(owner: string)
    | HeroBody(words: seq<string>, tagline: string)
    | AboutBody(about: string)
    | ProjectsBody(projects: ProjectsFile)
    | SkillsBody(skills: SkillsFile)
    | ContactBody(contact: ContactFile)
    | PackageJsonBody(packageName: string)
    | ReadmeBody(readme: ReadmeFile)
    | StaticBody(part: StaticPart)

  datatype OutputFile = OutputFile(path: FilePath, body: FileBody)

  /** What one run produces: the folders created, the files written, and the name
      the archive is saved under. */
  datatype Output = Output(folders: seq<Folder>, files: seq<OutputFile>, archiveName: string)

  /** `zip.folder('src')`, `src.folder('components')`, `src.folder('utils')`. */
  const Folders: seq<Folder> := [Src, Components, Utils]

  /** The folder names leading from the archive root to `f`. */
  function FolderSegments(f: Folder): (segments: seq<string>)
    ensures f == Root <==> segments == []
    ensures f != Root ==> segments[0] == "src"
    ensures f == Src ==> segments == ["src"]
    ensures f == Components ==> segments == ["src", "components"]
    ensures f == Utils ==> segments == ["src", "utils"]
  {
    match f
    case Root => []
    case Src => ["src"]
    case Components => ["src", "components"]
    case Utils => ["src", "utils"]
  }

  function NameText(n: FileName): string {
    match n
    case AppJsx => "App.jsx"
    case HeroJsx => "Hero.jsx"
    case AboutJsx => "About.jsx"
    case ProjectsJsx => "Projects.jsx"
    case SkillsJsx => "Skills.jsx"
    case ContactJsx => "Contact.jsx"
    case NavbarJsx => "Navbar.jsx"
    case CustomCursorJsx => "CustomCursor.jsx"
    case ScrollProgressJsx => "ScrollProgress.jsx"
    case ThreeBackgroundJsx => "ThreeBackground.jsx"
    case PackageJson => "package.json"
    case ReadmeMd => "README.md"
    case IndexCss => "index.css"
    case MainJsx => "main.jsx"
  }

  /** A path as the archive spells it, segments separated by `/`: splitting it at
      `/` gives back the folder names and the file name. */
  function PathText(p: FilePath): (text: string)
    ensures Split(text, '/') == FolderSegments(p.folder) + [NameText(p.name)]
  {
    var segments := FolderSegments(p.folder) + [NameText(p.name)];
    NameHasNoSlash(p.name);
    assert forall i :: 0 <= i < |segments| ==> '/' !in segments[i];
    SplitOfJoin(segments, '/');
    Join(segments, '/')
  }

  /** `formData.name.split(' ')`: the words the hero types out, split at single
      spaces only, so that joining them with spaces gives the name back. */
  function HeroWords(name: string): (words: seq<string>)
    ensures |words| == multiset(name)[' '] + 1
    ensures forall i :: 0 <= i < |words| ==> ' ' !in words[i]
    ensures Join(words, ' ') == name
  {
    Split(name, ' ')
  }

  /** The paths written, in the order the generator writes them. */
  const Layout: seq<FilePath> := [
    FilePath(Src, AppJsx),
    FilePath(Components, HeroJsx),
    FilePath(Components, AboutJsx),
    FilePath(Components, ProjectsJsx),
    FilePath(Components, SkillsJsx),
    FilePath(Components, ContactJsx),
    FilePath(Components, NavbarJsx),
    FilePath(Components, CustomCursorJsx),
    FilePath(Components, ScrollProgressJsx),
    FilePath(Components, ThreeBackgroundJsx),
    FilePath(Root, PackageJson),
    FilePath(Root, ReadmeMd),
    FilePath(Src, IndexCss),
    FilePath(Src, MainJsx)]

  /** What the generator computes from the form before writing: the inputs of the
      form-dependent files, one `generate...` call each. */
  datatype Sections = Sections(
    owner: string,
    heroWords: seq<string>,
    tagline: string,
    about: string,
    projects: ProjectsFile,
    skills: SkillsFile,
    contact: ContactFile,
    packageName: string,
    readme: ReadmeFile)

  function SectionsOf(form: FormData, draw: nat -> Fraction): (s: Sections)
    ensures s.packageName == PackageName(form.name)
  {
    Sections(
      form.name,
      HeroWords(form.name),
      form.title,
      form.about,
      ProjectsContent(form.projects),
      SkillsContent(form.skills, draw),
      ContactContent(form),
      PackageName(form.name),
      ReadmeContent(form))
  }

  /** The content written at each path of `Layout`, in write order. */
  function Bodies(s: Sections): (bodies: seq<FileBody>)
    ensures |bodies| == |Layout|
  {
    [ AppShell(s.owner),
      HeroBody(s.heroWords, s.tagline),
      AboutBody(s.about),
      ProjectsBody(s.projects),
      SkillsBody(s.skills),
      ContactBody(s.contact),
      StaticBody(NavbarComponent),
      StaticBody(CustomCursorComponent),
      StaticBody(ScrollProgressComponent),
      StaticBody(ThreeBackgroundComponent),
      PackageJsonBody(s.packageName),
      ReadmeBody(s.readme),
      StaticBody(Stylesheet),
      StaticBody(EntryPoint)]
  }

  /** The content each file name is written with: the `generate...` or `get...`
      call that the generator passes to `file()` for that name. */
  function BodyFor(s: Sections, n: FileName): FileBody {
    match n
    case AppJsx => AppShell(s.owner)
    case HeroJsx => HeroBody(s.heroWords, s.tagline)
    case AboutJsx => AboutBody(s.about)
    case ProjectsJsx => ProjectsBody(s.projects)
    case SkillsJsx => SkillsBody(s.skills)
    case ContactJsx => ContactBody(s.contact)
    case NavbarJsx => StaticBody(NavbarComponent)
    case CustomCursorJsx => StaticBody(CustomCursorComponent)
    case ScrollProgressJsx => StaticBody(ScrollProgressComponent)
    case ThreeBackgroundJsx => StaticBody(ThreeBackgroundComponent)
    case PackageJson => PackageJsonBody(s.packageName)
    case ReadmeMd => ReadmeBody(s.readme)
    case IndexCss => StaticBody(Stylesheet)
    case MainJsx => StaticBody(EntryPoint)
  }

  /** Each position of the write order carries the content its file name calls for. */
  lemma BodiesFit(s: Sections, i: nat)
    requires i < |Layout|
    ensures Bodies(s)[i] == BodyFor(s, Layout[i].name)
  {
  }

  /** The files written for a form. */
  function OutputFiles(form: FormData, draw: nat -> Fraction): (files: seq<OutputFile>)
    ensures |files| == |Layout|
  {
    Zip(Layout, Bodies(SectionsOf(form, draw)))
  }

  /** Pairs each path with the body at the same position. */
  function Zip(paths: seq<FilePath>, bodies: seq<FileBody>): (files: seq<OutputFile>)
    requires |paths| == |bodies|
    ensures |files| == |paths|
    ensures forall i :: 0 <= i < |files| ==> files[i] == OutputFile(paths[i], bodies[i])
  {
    if paths == [] then []
    else [OutputFile(paths[0], bodies[0])] + Zip(paths[1..], bodies[1..])
  }

  /** `generatePortfolio(formData)` without the packing and the download. */
  function GeneratePortfolio(form: FormData, draw: nat -> Fraction): (out: Output)
    ensures out.folders == Folders
    ensures |out.files| == 14
    ensures out.archiveName == PackageName(form.name) + ArchiveExtension
    ensures NoWhitespace(out.archiveName)
  {
    Output(Folders, OutputFiles(form, draw), ArchiveName(form.name))
  }

  /** The archive's table of contents: each file's path text mapped to its body. */
  function Archive(files: seq<OutputFile>): (archive: map<string, FileBody>)
    ensures archive.Keys == set i | 0 <= i < |files| :: PathText(files[i].path)
  {
    var entries := Entries(files);
    assert forall i :: 0 <= i < |files| ==> entries[i].0 == PathText(files[i].path);
    MapOf(entries)
  }

  /** Each file as the (path, content) pair the archive is given. */
  function Entries(files: seq<OutputFile>): (entries: seq<(string, FileBody)>)
    ensures |entries| == |files|
    ensures forall i :: 0 <= i < |files| ==> entries[i] == (PathText(files[i].path), files[i].body)
  {
    seq(|files|, i requires 0 <= i < |files| => (PathText(files[i].path), files[i].body))
  }

  // Lemmas

  /** The layout names fourteen pairwise-different paths. */
  lemma LayoutDistinct(i: nat, j: nat)
    requires i < j < |Layout|
    ensures |Layout| == 14
    ensures Layout[i] != Layout[j]
  {
  }

  /** Every file lands in the archive root or in a folder the generator creates,
      and none lands in `src/utils`, which stays empty. */
  lemma LayoutFolders(i: nat)
    requires i < |Layout|
    ensures Layout[i].folder == Root || Layout[i].folder in Folders
    ensures Layout[i].folder != Utils
    ensures Utils in Folders
  {
  }

  /** Nine files go to `src/components`: the ten writes after `App.jsx` but the
      root's `package.json`. The remaining five are `src/App.jsx`, the root's
      `package.json` and `README.md`, and `src/index.css` and `src/main.jsx`. */
  lemma LayoutComponents(i: nat)
    requires i < |Layout|
    ensures Layout[i].folder == Components <==> 1 <= i <= 9
    ensures Layout[i].folder == Root <==> i == 10 || i == 11
  {
  }

  /** Each file of a run sits at the path the layout gives for its position. */
  lemma OutputPaths(form: FormData, draw: nat -> Fraction, i: nat)
    requires i < |Layout|
    ensures OutputFiles(form, draw)[i] == OutputFile(Layout[i], Bodies(SectionsOf(form, draw))[i])
  {
  }

  /** Every file of a run is written at its layout path with the content its name
      calls for, computed from this form. */
  lemma FileContents(form: FormData, draw: nat -> Fraction, i: nat)
    requires i < |Layout|
    ensures OutputFiles(form, draw)[i].path == Layout[i]
    ensures OutputFiles(form, draw)[i].body == BodyFor(SectionsOf(form, draw), Layout[i].name)
  {
    OutputPaths(form, draw, i);
    BodiesFit(SectionsOf(form, draw), i);
  }

  /** File names hold no `/`, so each is one segment of its path. */
  lemma NameHasNoSlash(n: FileName)
    ensures '/' !in NameText(n)
  {
  }

  /** Different files have different names. */
  lemma NameTextInjective(a: FileName, b: FileName)
    requires NameText(a) == NameText(b)
    ensures a == b
  {
  }

  /** Different paths are spelled differently, so no file of the archive
      overwrites another. */
  lemma PathTextInjective(p: FilePath, q: FilePath)
    requires PathText(p) == PathText(q)
    ensures p == q
  {
    var ps, qs := FolderSegments(p.folder) + [NameText(p.name)], FolderSegments(q.folder) + [NameText(q.name)];
    assert ps == Split(PathText(p), '/') == qs;
    assert ps[|ps| - 1] == qs[|qs| - 1];
    NameTextInjective(p.name, q.name);
    assert FolderSegments(p.folder) == ps[..|ps| - 1] == qs[..|qs| - 1] == FolderSegments(q.folder);
  }

  /** The archive has one entry per file, and looking up a file's path gives its
      body, provided no two files share a path. */
  lemma ArchiveLookup(files: seq<OutputFile>)
    requires forall i, j :: 0 <= i < j < |files| ==> PathText(files[i].path) != PathText(files[j].path)
    ensures |Archive(files)| == |files|
    ensures forall i :: 0 <= i < |files| ==> Archive(files)[PathText(files[i].path)] == files[i].body
  {
    MapOfDistinct(Entries(files));
  }

  /** The generated project: fourteen entries, each file retrievable at its path. */
  lemma ArchiveOfRun(form: FormData, draw: nat -> Fraction)
    ensures |Archive(OutputFiles(form, draw))| == 14
    ensures forall i :: 0 <= i < 14 ==>
      Archive(OutputFiles(form, draw))[PathText(Layout[i])] == OutputFiles(form, draw)[i].body
  {
    var files := OutputFiles(form, draw);
    forall i, j | 0 <= i < j < |files| ensures PathText(files[i].path) != PathText(files[j].path) {
      OutputPaths(form, draw, i);
      OutputPaths(form, draw, j);
      LayoutDistinct(i, j);
      if PathText(files[i].path) == PathText(files[j].path) {
        PathTextInjective(files[i].path, files[j].path);
      }
    }
    ArchiveLookup(files);
    forall i | 0 <= i < 14 ensures files[i].path == Layout[i] {
      OutputPaths(form, draw, i);
    }
  }

  /** The body written at `package.json` carries the package name. */
  lemma PackageBody(s: Sections)
    ensures Bodies(s)[10] == PackageJsonBody(s.packageName)
  {
  }

  /** The root's `package.json` names the package after the owner. */
  lemma PackageFile(form: FormData, draw: nat -> Fraction)
    ensures OutputFiles(form, draw)[10] == OutputFile(FilePath(Root, PackageJson), PackageJsonBody(PackageName(form.name)))
  {
    OutputPaths(form, draw, 10);
    PackageBody(SectionsOf(form, draw));
  }

  /** The archive is saved under the package name of `package.json` plus `.zip`:
      both come from the same slug of the owner's name. */
  lemma ArchiveNamedAfterPackage(form: FormData, draw: nat -> Fraction)
    ensures OutputFiles(form, draw)[10].body.PackageJsonBody?
    ensures GeneratePortfolio(form, draw).archiveName
      == OutputFiles(form, draw)[10].body.packageName + ArchiveExtension
  {
    PackageFile(form, draw);
  }

  /** The hero splits at single spaces only: two spaces in a row give an empty word. */
  lemma HeroWordsDoubleSpace(first: string, last: string)
    requires ' ' !in first && ' ' !in last
    ensures HeroWords(first + [' ', ' '] + last) == [first, [], last]
  {
    var rest := [' '] + last;
    calc {
      Split(first + [' ', ' '] + last, ' ');
      { assert first + [' ', ' '] + last == first + [' '] + rest; }
      Split(first + [' '] + rest, ' ');
      { SplitAtFirstSeparator(first, rest, ' '); }
      [first] + Split(rest, ' ');
      { assert rest == [] + [' '] + last;
        SplitAtFirstSeparator([], last, ' '); }
      [first] + ([[]] + Split(last, ' '));
      { SplitWithoutSeparator(last, ' '); }
      [first] + ([[]] + [last]);
    }
  }
}

=== FILE: projects.dfy ===
/** The Projects section (src/utils/generatePortfolio.js, lines 289-416): the form's
    project rows that have a title, each with its technology list split out and an
    image and colour chosen by its position, shown in a carousel, or a fixed
    message when no row survives. */
module Projects {
  import opened Strings
  import opened Seqs
  import opened Decimal
  import opened Form

  const ImageBase: string := "https://source.unsplash.com/800x600/?coding,technology&sig="

  /** The three gradient classes the projects cycle through. */
  const Palette: seq<string> := ["from-purple-500 to-pink-500", "from-blue-500 to-cyan-500", "from-green-500 to-emerald-500"]

  const FallbackMessage: string := "No projects added yet."

  /** A project as it is written into the generated component. */
  datatype Project = Project(
    title: string,
    description: string,
    tech: seq<string>,
    link: string,
    github: string,
    image: string,
    color: string)

  /** What the section shows below its heading. */
  datatype Gallery =
    | Fallback(message: string)
    | Carousel(navigation: bool)

  /** The generated Projects component: the project data and the gallery. */
  datatype ProjectsFile = ProjectsFile(projects: seq<Project>, gallery: Gallery)

  /** A button on a project card. */
  datatype CardLink = CodeLink(href: string) | DemoLink(href: string)

  /** `p => p.title`: the raw title is tested, so a title of blanks survives. */
  predicate HasTitle(p: ProjectEntry) {
    Truthy(p.title)
  }

  /** `formData.projects.filter(p => p.title)`. */
  function Titled(entries: seq<ProjectEntry>): (kept: seq<ProjectEntry>)
    ensures |kept| <= |entries|
    ensures forall i :: 0 <= i < |kept| ==> kept[i].title != []
    ensures forall i :: 0 <= i < |kept| ==> kept[i] in entries
    ensures forall i :: 0 <= i < |entries| && entries[i].title != [] ==> entries[i] in kept
  {
    Filter(entries, HasTitle)
  }

  /** `p.tech.split(',').map(t => t.trim())`: one item per comma-separated piece,
      each trimmed, with empty items kept. */
  function TechList(tech: string): (items: seq<string>)
    ensures |items| == multiset(tech)[','] + 1
    ensures forall i :: 0 <= i < |items| ==> IsTrimmed(items[i]) && ',' !in items[i]
  {
    var parts := Split(tech, ',');
    TrimAllKeepsOut(parts, ',');
    TrimAll(parts)
  }

  /** The image address of the `i`-th surviving project. */
  function ImageUrl(i: nat): (url: string)
    ensures |url| > |ImageBase| && url[..|ImageBase|] == ImageBase
    ensures AllDigits(url[|ImageBase|..]) && ParseDecimal(url[|ImageBase|..]) == i
    ensures url[|ImageBase|] == '0' ==> i == 0 && |url| == |ImageBase| + 1
  {
    var url := ImageBase + NatToDecimal(i);
    assert url[|ImageBase|..] == NatToDecimal(i);
    url
  }

  /** The `i`-th surviving row with its technology list, image and colour. */
  function NormalizeProject(p: ProjectEntry, i: nat): (q: Project)
    ensures q.title == p.title && q.description == p.description
    ensures q.link == p.link && q.github == p.github
    ensures q.tech == TechList(p.tech)
    ensures q.image == ImageUrl(i) && q.color == Palette[i % 3]
  {
    Project(p.title, p.description, TechList(p.tech), p.link, p.github, ImageUrl(i), Palette[i % 3])
  }

  /** `projects.map((p, i) => ...)` applied to the surviving rows. */
  function NormalizeProjects(entries: seq<ProjectEntry>): (ps: seq<Project>)
    ensures |ps| == |Titled(entries)|
    ensures forall i :: 0 <= i < |ps| ==> ps[i].title != [] && ps[i].image == ImageUrl(i) && ps[i].color == Palette[i % 3]
  {
    var kept := Titled(entries);
    var ps := seq(|kept|, i requires 0 <= i < |kept| => NormalizeProject(kept[i], i));
    assert forall i :: 0 <= i < |ps| ==> ps[i] == NormalizeProject(kept[i], i);
    ps
  }

  /** The section for the form's project rows. */
  function ProjectsContent(entries: seq<ProjectEntry>): (file: ProjectsFile)
    ensures file.projects == NormalizeProjects(entries)
    ensures file.gallery.Fallback? <==> forall i :: 0 <= i < |entries| ==> entries[i].title == []
    ensures file.gallery.Fallback? ==> file.gallery.message == FallbackMessage
    ensures file.gallery.Carousel? ==> (file.gallery.navigation <==> |file.projects| > 1)
  {
    var ps := NormalizeProjects(entries);
    NoneTitledIffEmpty(entries);
    if |ps| > 0 then ProjectsFile(ps, Carousel(|ps| > 1))
    else ProjectsFile(ps, Fallback(FallbackMessage))
  }

  /** The buttons on the card of the project shown: source code first, then the
      live demo, each only when its address is set. */
  function CardLinks(p: Project): (links: seq<CardLink>)
    ensures CodeLink(p.github) in links <==> Truthy(p.github)
    ensures DemoLink(p.link) in links <==> Truthy(p.link)
    ensures forall k :: 0 <= k < |links| ==> links[k].href != []
    ensures |links| <= 2 && forall k :: 0 <= k < |links| ==> links[k] == CodeLink(p.github) || links[k] == DemoLink(p.link)
    ensures |links| == 2 ==> links[0].CodeLink? && links[1].DemoLink?
  {
    (if Truthy(p.github) then [CodeLink(p.github)] else [])
    + (if Truthy(p.link) then [DemoLink(p.link)] else [])
  }

  // Lemmas

  /** No row survives exactly when no row has a title. */
  lemma NoneTitledIffEmpty(entries: seq<ProjectEntry>)
    ensures Titled(entries) == [] <==> forall i :: 0 <= i < |entries| ==> entries[i].title == []
  {
    if forall i :: 0 <= i < |entries| ==> entries[i].title == [] {
      FilterKeepsNone(entries, HasTitle);
    }
  }

  /** Row `j`, when it has a title, survives at the position given by the number of
      titled rows before it. */
  lemma SurvivorPosition(entries: seq<ProjectEntry>, j: nat)
    requires j < |entries| && HasTitle(entries[j])
    ensures |Titled(entries[..j])| < |Titled(entries)|
    ensures Titled(entries)[|Titled(entries[..j])|] == entries[j]
  {
    assert entries == entries[..j] + ([entries[j]] + entries[j + 1..]);
    FilterAppend(entries[..j], [entries[j]] + entries[j + 1..], HasTitle);
    FilterAppend([entries[j]], entries[j + 1..], HasTitle);
    assert Filter([entries[j]], HasTitle) == [entries[j]] by {
      FilterKeepsAll([entries[j]], HasTitle);
    }
  }

  /** Survivors keep their relative order: an earlier titled row gets an earlier
      position. */
  lemma SurvivorsInOrder(entries: seq<ProjectEntry>, j1: nat, j2: nat)
    requires j1 < j2 < |entries| && HasTitle(entries[j1])
    ensures |Titled(entries[..j1])| < |Titled(entries[..j2])|
  {
    assert entries[..j2] == entries[..j1] + entries[j1..j2];
    FilterAppend(entries[..j1], entries[j1..j2], HasTitle);
    assert entries[j1..j2][0] == entries[j1];
    assert entries[j1..j2][0] in Filter(entries[j1..j2], HasTitle);
  }

  /** The titled row `j` becomes the project numbered by its survivor position:
      that number picks its image and its colour, so numbering runs from 0 with
      no gaps left by dropped rows. */
  lemma ProjectOfRow(entries: seq<ProjectEntry>, j: nat)
    requires j < |entries| && HasTitle(entries[j])
    ensures var k := |Titled(entries[..j])|;
      k < |NormalizeProjects(entries)| && NormalizeProjects(entries)[k] == NormalizeProject(entries[j], k)
  {
    SurvivorPosition(entries, j);
  }

  /** Different projects get different images. */
  lemma ImagesDistinct(entries: seq<ProjectEntry>, i: nat, j: nat)
    requires i < j < |NormalizeProjects(entries)|
    ensures NormalizeProjects(entries)[i].image != NormalizeProjects(entries)[j].image
  {
  }

  /** Colours repeat with period three, and neighbours differ. */
  lemma ColorsCycle(entries: seq<ProjectEntry>, i: nat)
    requires i + 3 < |NormalizeProjects(entries)|
    ensures NormalizeProjects(entries)[i + 3].color == NormalizeProjects(entries)[i].color
    ensures NormalizeProjects(entries)[i + 1].color != NormalizeProjects(entries)[i].color
  {
    PaletteCycle(i);
  }

  lemma PaletteCycle(i: nat)
    ensures Palette[(i + 3) % 3] == Palette[i % 3]
    ensures Palette[(i + 1) % 3] != Palette[i % 3]
  {
  }

  /** Splitting a comma-joined list gives back each piece, trimmed: one item per
      piece, and a piece of only blanks becomes an empty item rather than being
      dropped. */
  lemma TechListOfJoin(parts: seq<string>)
    requires |parts| >= 1
    requires forall i :: 0 <= i < |parts| ==> ',' !in parts[i]
    ensures TechList(Join(parts, ',')) == TrimAll(parts)
    ensures forall i :: 0 <= i < |parts| ==> (TechList(Join(parts, ','))[i] == [] <==> AllWhitespace(parts[i]))
  {
    SplitOfJoin(parts, ',');
  }

  /** Round trip: trimmed comma-free items joined with commas split back into the
      same items. */
  lemma TechListRoundTrip(items: seq<string>)
    requires |items| >= 1
    requires forall i :: 0 <= i < |items| ==> ',' !in items[i] && IsTrimmed(items[i])
    ensures TechList(Join(items, ',')) == items
  {
    TechListOfJoin(items);
    TrimAllOfTrimmed(items);
  }
}

=== FILE: readme.dfy ===
/** The generated README (src/utils/generatePortfolio.js, lines 634-695): a fixed
    text whose title names the owner and whose contact part lists the address,
    then the GitHub and LinkedIn lines when those fields are set. */
module Readme {
  import opened Form

  const EmailLabel: string := "- Email: "
  const GitHubLabel: string := "- GitHub: "
  const LinkedInLabel: string := "- LinkedIn: "

  /** The parts of the README that depend on the form: the owner named in the
      title, and the three lines of the contact list (an unset one is empty). */
  datatype ReadmeFile = ReadmeFile(owner: string, contactLines: seq<string>)

  /** `field ? prefix + field : ''`. */
  function OptionalLine(prefix: string, field: string): (line: string)
    ensures Truthy(field) ==> line == prefix + field
    ensures !Truthy(field) ==> line == []
  {
    if Truthy(field) then prefix + field else []
  }

  function ReadmeContent(form: FormData): (file: ReadmeFile)
    ensures file.owner == form.name
    ensures |file.contactLines| == 3
    ensures file.contactLines[0] == EmailLabel + form.email
    ensures file.contactLines[1] != [] <==> Truthy(form.github)
    ensures file.contactLines[2] != [] <==> Truthy(form.linkedin)
    ensures Truthy(form.github) ==> file.contactLines[1] == GitHubLabel + form.github
    ensures Truthy(form.linkedin) ==> file.contactLines[2] == LinkedInLabel + form.linkedin
  {
    ReadmeFile(form.name, [
      EmailLabel + form.email,
      OptionalLine(GitHubLabel, form.github),
      OptionalLine(LinkedInLabel, form.linkedin)])
  }

  // Lemmas

  /** Twitter, the phone and the location never reach the README: changing them
      leaves it as it is. */
  lemma ReadmeIgnoresTwitter(form: FormData, twitter: string, phone: string, location: string)
    ensures ReadmeContent(form.(twitter := twitter, phone := phone, location := location)) == ReadmeContent(form)
  {
  }
}

=== FILE: seqs.dfy ===
/** Sequence helpers: `Array.prototype.filter`, the smaller of two lengths (the length
    of `slice(0, k)`), and the map built by adding key/value pairs one after another. */
module Seqs {

  function Min(a: int, b: int): (m: int)
    ensures m <= a && m <= b
    ensures m == a || m == b
  {
    if a <= b then a else b
  }

  /** `xs.filter(keep)`: the elements `keep` accepts, in their original order. */
  function Filter<T>(xs: seq<T>, keep: T -> bool): (kept: seq<T>)
    ensures |kept| <= |xs|
    ensures forall i :: 0 <= i < |kept| ==> keep(kept[i])
    ensures forall i :: 0 <= i < |kept| ==> kept[i] in xs
    ensures forall i :: 0 <= i < |xs| && keep(xs[i]) ==> xs[i] in kept
  {
    if xs == [] then []
    else (if keep(xs[0]) then [xs[0]] else []) + Filter(xs[1..], keep)
  }

  /** Filtering distributes over concatenation, so relative order is preserved. */
  lemma {:induction false} FilterAppend<T>(a: seq<T>, b: seq<T>, keep: T -> bool)
    ensures Filter(a + b, keep) == Filter(a, keep) + Filter(b, keep)
  {
    if a != [] {
      assert (a + b)[0] == a[0];
      assert (a + b)[1..] == a[1..] + b;
      FilterAppend(a[1..], b, keep);
      var head := if keep(a[0]) then [a[0]] else [];
      assert Filter(a + b, keep) == head + Filter(a[1..] + b, keep);
      assert Filter(a, keep) == head + Filter(a[1..], keep);
    } else {
      assert a + b == b;
    }
  }

  /** A filter that accepts every element keeps the whole sequence. */
  lemma {:induction false} FilterKeepsAll<T>(xs: seq<T>, keep: T -> bool)
    requires forall i :: 0 <= i < |xs| ==> keep(xs[i])
    ensures Filter(xs, keep) == xs
  {
    if xs != [] {
      FilterKeepsAll(xs[1..], keep);
    }
  }

  /** A filter that accepts no element keeps nothing. */
  lemma {:induction false} FilterKeepsNone<T>(xs: seq<T>, keep: T -> bool)
    requires forall i :: 0 <= i < |xs| ==> !keep(xs[i])
    ensures Filter(xs, keep) == []
  {
    if xs != [] {
      FilterKeepsNone(xs[1..], keep);
    }
  }

  /** The map obtained by adding the pairs in order, a later pair overriding an
      earlier one with the same key. */
  function MapOf<K(==), V>(pairs: seq<(K, V)>): (m: map<K, V>)
    ensures m.Keys == set i | 0 <= i < |pairs| :: pairs[i].0
  {
    if pairs == [] then map[]
    else
      var init := pairs[..|pairs| - 1];
      assert forall i :: 0 <= i < |init| ==> init[i] == pairs[i];
      MapOf(init)[pairs[|pairs| - 1].0 := pairs[|pairs| - 1].1]
  }

  /** With pairwise-different keys nothing is overridden: one entry per pair, and
      each key maps to its own value. */
  lemma {:induction false} MapOfDistinct<K, V>(pairs: seq<(K, V)>)
    requires forall i, j :: 0 <= i < j < |pairs| ==> pairs[i].0 != pairs[j].0
    ensures |MapOf(pairs)| == |pairs|
    ensures forall i :: 0 <= i < |pairs| ==> MapOf(pairs)[pairs[i].0] == pairs[i].1
  {
    if pairs != [] {
      var init, last := pairs[..|pairs| - 1], pairs[|pairs| - 1];
      assert forall i :: 0 <= i < |init| ==> init[i] == pairs[i];
      MapOfDistinct(init);
      var before := MapOf(init);
      assert MapOf(pairs) == before[last.0 := last.1];
      assert last.0 !in before;
      forall i | 0 <= i < |pairs| ensures MapOf(pairs)[pairs[i].0] == pairs[i].1 {
        if i < |init| {
          assert before[init[i].0] == init[i].1;
        }
      }
    }
  }
}

=== FILE: skills.dfy ===
/** The Skills section (src/utils/generatePortfolio.js, lines 418-488): the form's
    comma-separated skills become a list of tags, and the first six of them also
    get a progress meter with a random level and a category. */
module Skills {
  import opened Strings
  import opened Seqs
  import opened Form

  /** A value of `Math.random()`. */
  type Fraction = r: real | 0.0 <= r < 1.0

  /** The categories handed out by position. */
  const Categories: seq<string> := ["Frontend", "Backend", "Database", "Tools", "Language", "Framework"]

  /** At most this many skills get a meter (`skills.slice(0, 6)`). */
  const MeterCap: nat := 6

  datatype MeterEntry = MeterEntry(name: string, level: real, category: string)

  /** The generated Skills component: the meters and the tag cloud. */
  datatype SkillsFile = SkillsFile(meter: seq<MeterEntry>, tags: seq<string>)

  /** `skills.split(',').map(s => s.trim()).filter(Boolean)`. */
  function SkillTokens(skills: string): (tokens: seq<string>)
    ensures |tokens| <= multiset(skills)[','] + 1
    ensures forall i :: 0 <= i < |tokens| ==> tokens[i] != [] && IsTrimmed(tokens[i]) && ',' !in tokens[i]
  {
    var parts := Split(skills, ',');
    TrimAllKeepsOut(parts, ',');
    Filter(TrimAll(parts), Truthy)
  }

  /** `75 + Math.random() * 20`. */
  function Level(draw: Fraction): (level: real)
    ensures 75.0 <= level < 95.0
  {
    75.0 + draw * 20.0
  }

  /** The meter of the `i`-th skill: `categories[i % 6]`, which for the capped
      list is simply the `i`-th category. */
  function MeterAt(name: string, i: nat, draw: Fraction): (entry: MeterEntry)
    requires i < MeterCap
    ensures entry.name == name && 75.0 <= entry.level < 95.0
    ensures entry.category == Categories[i]
  {
    MeterEntry(name, Level(draw), Categories[i % |Categories|])
  }

  /** The meters: the first `MeterCap` skills in order, the `i`-th with the `i`-th
      random draw and the `i`-th category. The cap equals the number of
      categories, so the category cycle never wraps. */
  function Meter(tokens: seq<string>, draw: nat -> Fraction): (meter: seq<MeterEntry>)
    ensures |meter| == Min(MeterCap, |tokens|)
    ensures forall i :: 0 <= i < |meter| ==> meter[i].name == tokens[i]
    ensures forall i :: 0 <= i < |meter| ==> 75.0 <= meter[i].level < 95.0
    ensures forall i :: 0 <= i < |meter| ==> meter[i].category == Categories[i]
  {
    var count := Min(MeterCap, |tokens|);
    var meter := seq(count, i requires 0 <= i < count => MeterAt(tokens[i], i, draw(i)));
    assert forall i :: 0 <= i < count ==> meter[i] == MeterAt(tokens[i], i, draw(i));
    meter
  }

  /** The section for the form's skills text; `draw(i)` is the `i`-th value
      `Math.random()` returns while it is built. */
  function SkillsContent(skills: string, draw: nat -> Fraction): (file: SkillsFile)
    ensures file.tags == SkillTokens(skills)
    ensures |file.meter| == Min(MeterCap, |file.tags|)
    ensures forall i :: 0 <= i < |file.meter| ==> file.meter[i].name == file.tags[i]
  {
    var tokens := SkillTokens(skills);
    SkillsFile(Meter(tokens, draw), tokens)
  }

  // Lemmas

  /** No two meters share a category. */
  lemma MeterCategoriesDistinct(tokens: seq<string>, draw: nat -> Fraction, i: nat, j: nat)
    requires i < j < |Meter(tokens, draw)|
    ensures Meter(tokens, draw)[i].category != Meter(tokens, draw)[j].category
  {
  }

  /** Two runs on the same skills text differ at most in the levels: the tags,
      the number of meters, their names and their categories are the same. */
  lemma OnlyLevelsVary(skills: string, draw1: nat -> Fraction, draw2: nat -> Fraction)
    ensures SkillsContent(skills, draw1).tags == SkillsContent(skills, draw2).tags
    ensures |SkillsContent(skills, draw1).meter| == |SkillsContent(skills, draw2).meter|
    ensures forall i :: 0 <= i < |SkillsContent(skills, draw1).meter| ==>
      SkillsContent(skills, draw1).meter[i].(level := 0.0) == SkillsContent(skills, draw2).meter[i].(level := 0.0)
  {
  }

  /** Splitting a comma-joined list and dropping blanks keeps the trimmed pieces
      that are not blank, in order. */
  lemma SkillTokensOfJoin(parts: seq<string>)
    requires |parts| >= 1
    requires forall i :: 0 <= i < |parts| ==> ',' !in parts[i]
    ensures SkillTokens(Join(parts, ',')) == Filter(TrimAll(parts), Truthy)
  {
    SplitOfJoin(parts, ',');
  }

  /** Round trip: non-empty trimmed comma-free skills joined with commas read back
      as the same skills. */
  lemma SkillTokensRoundTrip(items: seq<string>)
    requires |items| >= 1
    requires forall i :: 0 <= i < |items| ==> items[i] != [] && IsTrimmed(items[i]) && ',' !in items[i]
    ensures SkillTokens(Join(items, ',')) == items
  {
    SkillTokensOfJoin(items);
    TrimAllOfTrimmed(items);
    FilterKeepsAll(items, Truthy);
  }

  /** A blank piece before a comma contributes no skill. */
  lemma BlankPieceDropped(a: string, b: string)
    requires ',' !in a && AllWhitespace(a)
    ensures SkillTokens(a + [','] + b) == SkillTokens(b)
  {
    SplitAtFirstSeparator(a, b, ',');
    var rest := Split(b, ',');
    assert Trim(a) == [];
    calc {
      SkillTokens(a + [','] + b);
      Filter(TrimAll([a] + rest), Truthy);
      { TrimAllCons(a, rest); }
      Filter([Trim(a)] + TrimAll(rest), Truthy);
      { FilterAppend([Trim(a)], TrimAll(rest), Truthy); }
      Filter([Trim(a)], Truthy) + Filter(TrimAll(rest), Truthy);
    }
  }
}

=== FILE: slug.dfy ===
/** The slug derived from the owner's name (src/utils/generatePortfolio.js, lines 43
    and 163): `name.replace(/\s+/g, '-').toLowerCase()`. It names both the npm
    package of the generated project and the downloaded archive. */
module Slug {
  import opened Strings

  const PackageSuffix := "-portfolio"
  const ArchiveExtension := ".zip"

  /** `s.replace(/\s+/g, sep)`: scanning left to right, each maximal run of white
      space becomes a single `sep`; every other character is copied. */
  function ReplaceWhitespaceRuns(s: string, sep: char): (r: string)
    ensures |r| <= |s|
    decreases |s|
  {
    if s == [] then []
    else if IsWhitespace(s[0]) then [sep] + ReplaceWhitespaceRuns(TrimStart(s), sep)
    else [s[0]] + ReplaceWhitespaceRuns(s[1..], sep)
  }

  /** The slug: white-space runs collapsed to `-`, then lower-cased. */
  function Slugify(name: string): (slug: string)
    ensures NoWhitespace(slug)
    ensures |slug| <= |name|
  {
    var dashed := ReplaceWhitespaceRuns(name, '-');
    ReplaceRemovesWhitespace(name, '-');
    ToLowerKeepsWhitespace(dashed);
    ToLower(dashed)
  }

  /** The `name` field of the generated package.json. */
  function PackageName(name: string): (pkg: string)
    ensures NoWhitespace(pkg)
  {
    Slugify(name) + PackageSuffix
  }

  /** The file name handed to `saveAs`. It is computed from the name separately
      from the package name, with the same expression. */
  function ArchiveName(name: string): (file: string)
    ensures NoWhitespace(file)
    ensures file == PackageName(name) + ArchiveExtension
  {
    Slugify(name) + PackageSuffix + ArchiveExtension
  }

  // Lemmas

  /** With a separator that is not white space, no white space is left. */
  lemma {:induction false} ReplaceRemovesWhitespace(s: string, sep: char)
    requires !IsWhitespace(sep)
    ensures NoWhitespace(ReplaceWhitespaceRuns(s, sep))
    decreases |s|
  {
    if s != [] {
      if IsWhitespace(s[0]) {
        ReplaceRemovesWhitespace(TrimStart(s), sep);
      } else {
        ReplaceRemovesWhitespace(s[1..], sep);
      }
    }
  }

  /** A string without white space is copied unchanged. */
  lemma {:induction false} ReplaceWithoutWhitespace(s: string, sep: char)
    requires NoWhitespace(s)
    ensures ReplaceWhitespaceRuns(s, sep) == s
    decreases |s|
  {
    if s != [] {
      ReplaceWithoutWhitespace(s[1..], sep);
      assert [s[0]] + s[1..] == s;
    }
  }

  /** Stripping leading white space from a concatenation. */
  lemma {:induction false} TrimStartAppend(a: string, b: string)
    ensures TrimStart(a + b) == if AllWhitespace(a) then TrimStart(b) else TrimStart(a) + b
  {
    var k := SkipWhitespace(a, 0);
    var s := a + b;
    var e := SkipWhitespace(s, 0);
    if AllWhitespace(a) {
      assert forall i :: 0 <= i < |b| ==> s[|a| + i] == b[i];
      var f := SkipWhitespace(b, 0);
      assert e == |a| + f by {
        assert forall i :: 0 <= i < |a| + f ==> IsWhitespace(s[i]);
        if |a| + f < |s| {
          assert !IsWhitespace(s[|a| + f]);
        }
        SkipWhitespaceUnique(s, e, |a| + f);
      }
      assert s[e..] == b[f..];
    } else {
      assert k < |a|;
      assert forall i :: 0 <= i <= k ==> s[i] == a[i];
      SkipWhitespaceUnique(s, e, k);
      assert s[k..] == a[k..] + b;
    }
  }

  /** The first non-white-space index is unique. */
  lemma SkipWhitespaceUnique(s: string, e: nat, f: nat)
    requires e <= |s| && f <= |s|
    requires forall i :: 0 <= i < e ==> IsWhitespace(s[i])
    requires e < |s| ==> !IsWhitespace(s[e])
    requires forall i :: 0 <= i < f ==> IsWhitespace(s[i])
    requires f < |s| ==> !IsWhitespace(s[f])
    ensures e == f
  {
  }

  /** Replacing runs distributes over a concatenation whose seam does not fall
      inside a run of white space. */
  lemma {:induction false} ReplaceAppend(a: string, b: string, sep: char)
    requires a == [] || b == [] || !IsWhitespace(a[|a| - 1]) || !IsWhitespace(b[0])
    ensures ReplaceWhitespaceRuns(a + b, sep) == ReplaceWhitespaceRuns(a, sep) + ReplaceWhitespaceRuns(b, sep)
    decreases |a|, 1
  {
    if a == [] {
      assert a + b == b;
    } else if !IsWhitespace(a[0]) {
      ReplaceAppendWord(a, b, sep);
    } else if AllWhitespace(a) {
      ReplaceAppendAllWhitespace(a, b, sep);
    } else {
      ReplaceAppendLeadingRun(a, b, sep);
    }
  }

  /** `ReplaceAppend` when `a` starts with a character that is copied. */
  lemma {:induction false} ReplaceAppendWord(a: string, b: string, sep: char)
    requires a != [] && !IsWhitespace(a[0])
    requires b == [] || !IsWhitespace(a[|a| - 1]) || !IsWhitespace(b[0])
    ensures ReplaceWhitespaceRuns(a + b, sep) == ReplaceWhitespaceRuns(a, sep) + ReplaceWhitespaceRuns(b, sep)
    decreases |a|, 0
  {
    var rest := a[1..];
    assert (a + b)[0] == a[0] && (a + b)[1..] == rest + b;
    assert rest == [] || rest[|rest| - 1] == a[|a| - 1];
    ReplaceAppend(rest, b, sep);
    calc {
      ReplaceWhitespaceRuns(a + b, sep);
      { ReplaceAtWord(a + b, sep); }
      [a[0]] + ReplaceWhitespaceRuns(rest + b, sep);
      [a[0]] + (ReplaceWhitespaceRuns(rest, sep) + ReplaceWhitespaceRuns(b, sep));
      ([a[0]] + ReplaceWhitespaceRuns(rest, sep)) + ReplaceWhitespaceRuns(b, sep);
      { ReplaceAtWord(a, sep); }
      ReplaceWhitespaceRuns(a, sep) + ReplaceWhitespaceRuns(b, sep);
    }
  }

  /** `ReplaceAppend` when `a` starts with a run of white space that ends inside `a`. */
  lemma {:induction false} ReplaceAppendLeadingRun(a: string, b: string, sep: char)
    requires a != [] && IsWhitespace(a[0]) && !AllWhitespace(a)
    requires b == [] || !IsWhitespace(a[|a| - 1]) || !IsWhitespace(b[0])
    ensures ReplaceWhitespaceRuns(a + b, sep) == ReplaceWhitespaceRuns(a, sep) + ReplaceWhitespaceRuns(b, sep)
    decreases |a|, 0
  {
    var t := TrimStart(a);
    ReplaceAppendRun(a, b, sep);
    TrimStartSeam(a, b);
    ReplaceAppend(t, b, sep);
    var x, y := ReplaceWhitespaceRuns(t, sep), ReplaceWhitespaceRuns(b, sep);
    assert [sep] + (x + y) == ([sep] + x) + y;
  }

  /** Cutting a leading run off `a` shortens it and keeps its last character, so
      the seam between `a` and `b` stays outside any run. */
  lemma TrimStartSeam(a: string, b: string)
    requires a != [] && IsWhitespace(a[0]) && !AllWhitespace(a)
    requires b == [] || !IsWhitespace(a[|a| - 1]) || !IsWhitespace(b[0])
    ensures |TrimStart(a)| < |a|
    ensures TrimStart(a) != [] && TrimStart(a)[|TrimStart(a)| - 1] == a[|a| - 1]
  {
  }

  /** A character that is not white space is copied. */
  lemma ReplaceAtWord(s: string, sep: char)
    requires s != [] && !IsWhitespace(s[0])
    ensures ReplaceWhitespaceRuns(s, sep) == [s[0]] + ReplaceWhitespaceRuns(s[1..], sep)
  {
  }

  /** A string that is all white space, then one that does not start with it. */
  lemma ReplaceAppendAllWhitespace(a: string, b: string, sep: char)
    requires a != [] && AllWhitespace(a)
    requires b == [] || !IsWhitespace(b[0])
    ensures ReplaceWhitespaceRuns(a + b, sep) == ReplaceWhitespaceRuns(a, sep) + ReplaceWhitespaceRuns(b, sep)
  {
    assert (a + b)[0] == a[0];
    ReplaceAtRun(a + b, sep);
    ReplaceAtRun(a, sep);
    TrimStartAppend(a, b);
    assert TrimStart(b) == b;
    assert TrimStart(a + b) == b;
    assert TrimStart(a) == [];
    var rb := ReplaceWhitespaceRuns(b, sep);
    assert ReplaceWhitespaceRuns(a + b, sep) == [sep] + rb;
    assert ReplaceWhitespaceRuns(a, sep) == [sep];
  }

  /** One step of `ReplaceAppend` at a leading run that does not cover `a`. */
  lemma ReplaceAppendRun(a: string, b: string, sep: char)
    requires a != [] && IsWhitespace(a[0]) && !AllWhitespace(a)
    ensures ReplaceWhitespaceRuns(a + b, sep) == [sep] + ReplaceWhitespaceRuns(TrimStart(a) + b, sep)
    ensures ReplaceWhitespaceRuns(a, sep) == [sep] + ReplaceWhitespaceRuns(TrimStart(a), sep)
  {
    assert (a + b)[0] == a[0];
    ReplaceAtRun(a + b, sep);
    ReplaceAtRun(a, sep);
    TrimStartAppend(a, b);
  }

  /** At a run of white space, one separator is emitted and the run is skipped. */
  lemma ReplaceAtRun(s: string, sep: char)
    requires s != [] && IsWhitespace(s[0])
    ensures ReplaceWhitespaceRuns(s, sep) == [sep] + ReplaceWhitespaceRuns(TrimStart(s), sep)
  {
  }

  /** A non-empty run of white space alone becomes a single separator. */
  lemma ReplaceRun(w: string, sep: char)
    requires w != [] && AllWhitespace(w)
    ensures ReplaceWhitespaceRuns(w, sep) == [sep]
  {
  }

  /** The slug of `a`, a maximal run of white space, and `b` is the slug of `a`,
      one hyphen, and the slug of `b`: a run of any length and kind of white space
      becomes exactly one `-`. */
  lemma SlugOfRun(a: string, w: string, b: string)
    requires a == [] || !IsWhitespace(a[|a| - 1])
    requires w != [] && AllWhitespace(w)
    requires b == [] || !IsWhitespace(b[0])
    ensures Slugify(a + w + b) == Slugify(a) + "-" + Slugify(b)
  {
    var ra, rb := ReplaceWhitespaceRuns(a, '-'), ReplaceWhitespaceRuns(b, '-');
    calc {
      ReplaceWhitespaceRuns(a + w + b, '-');
      { assert a + w + b == a + (w + b) && (w + b)[0] == w[0];
        ReplaceAppend(a, w + b, '-'); }
      ra + ReplaceWhitespaceRuns(w + b, '-');
      { ReplaceAppend(w, b, '-'); ReplaceRun(w, '-'); }
      ra + ("-" + rb);
    }
    calc {
      Slugify(a + w + b);
      ToLower(ra + ("-" + rb));
      { ToLowerAppend(ra, "-" + rb); ToLowerAppend("-", rb); }
      ToLower(ra) + (ToLower("-") + ToLower(rb));
      { assert ToLower("-") == "-"; }
      Slugify(a) + "-" + Slugify(b);
    }
  }

  /** A name without white space is only lower-cased: punctuation such as `.` is
      kept as it is. */
  lemma SlugOfWord(w: string)
    requires NoWhitespace(w)
    ensures Slugify(w) == ToLower(w)
  {
    ReplaceWithoutWhitespace(w, '-');
  }

  /** Slugifying a slug changes nothing. */
  lemma SlugIdempotent(name: string)
    ensures Slugify(Slugify(name)) == Slugify(name)
  {
    var dashed := ReplaceWhitespaceRuns(name, '-');
    ToLowerIdempotent(dashed);
    ReplaceWithoutWhitespace(Slugify(name), '-');
  }

  /** Three words separated by single spaces: each word is lower-cased and each
      space becomes one `-`. */
  lemma SlugOfThreeWords(a: string, b: string, c: string)
    requires a != [] && b != [] && c != []
    requires NoWhitespace(a) && NoWhitespace(b) && NoWhitespace(c)
    ensures Slugify(a + " " + b + " " + c) == ToLower(a) + "-" + ToLower(b) + "-" + ToLower(c)
  {
    assert a + " " + b + " " + c == a + " " + (b + " " + c);
    SlugOfRun(a, " ", b + " " + c);
    SlugOfRun(b, " ", c);
    SlugOfWord(a);
    SlugOfWord(b);
    SlugOfWord(c);
  }

  /** The three words of the example, lower-cased. */
  lemma JaneExampleWords()
    ensures ToLower("Jane") == "jane" && ToLower("Q.") == "q." && ToLower("Public") == "public"
  {
  }

  /** "Jane Q. Public" becomes "jane-q.-public": only case and white space change. */
  lemma JaneExample()
    ensures Slugify("Jane" + " " + "Q." + " " + "Public") == "jane" + "-" + "q." + "-" + "public"
  {
    SlugOfThreeWords("Jane", "Q.", "Public");
    JaneExampleWords();
  }
}

=== FILE: strings.dfy ===
/** String operations with the semantics of the JavaScript built-ins the generator
    relies on: `trim`, `split` with a one-character separator, `join`, and
    `toLowerCase`. Strings are sequences of characters. */
module Strings {

  /** The characters matched by JavaScript's `\s` and removed by `String.prototype.trim`:
      the ECMAScript WhiteSpace and LineTerminator code points. */
  predicate IsWhitespace(c: char) {
    || c == '\t' || c == '\n' || c == '\U{B}' || c == '\U{C}' || c == '\r' || c == ' '
    || c == '\U{A0}' || c == '\U{1680}' || ('\U{2000}' <= c <= '\U{200A}')
    || c == '\U{2028}' || c == '\U{2029}' || c == '\U{202F}' || c == '\U{205F}'
    || c == '\U{3000}' || c == '\U{FEFF}'
  }

  predicate NoWhitespace(s: string) {
    forall i :: 0 <= i < |s| ==> !IsWhitespace(s[i])
  }

  predicate AllWhitespace(s: string) {
    forall i :: 0 <= i < |s| ==> IsWhitespace(s[i])
  }

  /** Neither end of `s` is white space. */
  predicate IsTrimmed(s: string) {
    s == [] || (!IsWhitespace(s[0]) && !IsWhitespace(s[|s| - 1]))
  }

  /** `r` is what remains of `s` once some white space is cut off each end. */
  ghost predicate StripsTo(s: string, r: string) {
    exists a :: StripsAt(s, r, a)
  }

  /** `r` occurs in `s` at index `a`, with only white space before and after it. */
  ghost predicate StripsAt(s: string, r: string, a: int) {
    && 0 <= a <= |s| - |r| && s[a..a + |r|] == r
    && (forall i :: 0 <= i < a ==> IsWhitespace(s[i]))
    && (forall i :: a + |r| <= i < |s| ==> IsWhitespace(s[i]))
  }

  /** The index of the first character at or after `k` that is not white space
      (`|s|` when there is none). */
  function SkipWhitespace(s: string, k: nat): (e: nat)
    requires k <= |s|
    ensures k <= e <= |s|
    ensures forall i :: k <= i < e ==> IsWhitespace(s[i])
    ensures e < |s| ==> !IsWhitespace(s[e])
    decreases |s| - k
  {
    if k < |s| && IsWhitespace(s[k]) then SkipWhitespace(s, k + 1) else k
  }

  /** The index just past the last character before `k` that is not white space
      (`0` when there is none). */
  function SkipWhitespaceBack(s: string, k: nat): (b: nat)
    requires k <= |s|
    ensures b <= k
    ensures forall i :: b <= i < k ==> IsWhitespace(s[i])
    ensures b > 0 ==> !IsWhitespace(s[b - 1])
  {
    if k > 0 && IsWhitespace(s[k - 1]) then SkipWhitespaceBack(s, k - 1) else k
  }

  /** `s` without its leading white space. */
  function TrimStart(s: string): (r: string)
    ensures r == [] || !IsWhitespace(r[0])
    ensures |r| <= |s| && r == s[|s| - |r|..]
    ensures forall i :: 0 <= i < |s| - |r| ==> IsWhitespace(s[i])
  {
    s[SkipWhitespace(s, 0)..]
  }

  /** `s.trim()`: the unique trimmed string obtained from `s` by cutting white space
      off its two ends. */
  function Trim(s: string): (r: string)
    ensures IsTrimmed(r)
    ensures StripsTo(s, r)
    ensures IsTrimmed(s) ==> r == s
    ensures r == [] <==> AllWhitespace(s)
    ensures multiset(r) <= multiset(s)
  {
    var a := SkipWhitespace(s, 0);
    var b := SkipWhitespaceBack(s, |s|);
    assert a < |s| ==> a < b;
    var r := if a < |s| then s[a..b] else [];
    assert StripsAt(s, r, if a < |s| then a else |s|);
    SliceMultiset(s, if a < |s| then a else 0, if a < |s| then b else 0);
    r
  }

  /** A slice holds no character more often than the whole string does. */
  lemma SliceMultiset(s: string, i: nat, j: nat)
    requires i <= j <= |s|
    ensures multiset(s[i..j]) <= multiset(s)
  {
    assert s == s[..i] + s[i..j] + s[j..];
    assert multiset(s) == multiset(s[..i]) + multiset(s[i..j]) + multiset(s[j..]);
  }

  /** `parts.join(sep)`. */
  function Join(parts: seq<string>, sep: char): string {
    if |parts| == 0 then []
    else if |parts| == 1 then parts[0]
    else parts[0] + [sep] + Join(parts[1..], sep)
  }

  /** The index of the first `c` at or after `k` in `s` (`|s|` when there is none). */
  function Find(s: string, c: char, k: nat): (e: nat)
    requires k <= |s|
    ensures k <= e <= |s|
    ensures forall i :: k <= i < e ==> s[i] != c
    ensures e < |s| ==> s[e] == c
    decreases |s| - k
  {
    if k < |s| && s[k] != c then Find(s, c, k + 1) else k
  }

  /** `s.split(sep)` for a one-character separator: one more part than `s` has
      separators, no part contains the separator, and joining the parts back
      restores `s`. */
  function Split(s: string, sep: char): (parts: seq<string>)
    ensures |parts| == multiset(s)[sep] + 1
    ensures forall i :: 0 <= i < |parts| ==> sep !in parts[i]
    ensures Join(parts, sep) == s
    decreases |s|
  {
    var k := Find(s, sep, 0);
    if k == |s| then
      assert sep !in s;
      [s]
    else
      var rest := Split(s[k + 1..], sep);
      assert s == s[..k] + [sep] + s[k + 1..];
      assert sep !in s[..k];
      JoinCons(s[..k], rest, sep);
      [s[..k]] + rest
  }

  /** Joining a part in front of a non-empty list puts one separator between them. */
  lemma JoinCons(p: string, rest: seq<string>, sep: char)
    requires |rest| >= 1
    ensures Join([p] + rest, sep) == p + [sep] + Join(rest, sep)
  {
  }

  /** Every element of `xs`, trimmed (`xs.map(t => t.trim())`): element `i` is the
      trimmed string left when white space is cut off both ends of `xs[i]`. */
  function TrimAll(xs: seq<string>): (ys: seq<string>)
    ensures |ys| == |xs|
    ensures forall i :: 0 <= i < |xs| ==> IsTrimmed(ys[i]) && StripsTo(xs[i], ys[i])
  {
    seq(|xs|, i requires 0 <= i < |xs| => Trim(xs[i]))
  }

  /** The capitals that `toLowerCase` maps here: A-Z and the Latin-1 capitals
      U+00C0-U+00DE except the multiplication sign U+00D7. Each lies 32 code
      points above its lower-case letter. */
  predicate IsUpper(c: char) {
    'A' <= c <= 'Z' || ('\U{C0}' <= c <= '\U{DE}' && c != '\U{D7}')
  }

  /** `c.toLowerCase()` for the letters of Basic Latin and of the Latin-1 Supplement. */
  function LowerChar(c: char): (d: char)
    ensures IsUpper(c) ==> d as int == c as int + 32 && !IsUpper(d)
    ensures !IsUpper(c) ==> d == c
    ensures IsWhitespace(d) <==> IsWhitespace(c)
  {
    if IsUpper(c) then (c as int + 32) as char else c
  }

  /** `s.toLowerCase()`: each capital is replaced by its lower-case letter and every
      other character is kept, in place. */
  function ToLower(s: string): (t: string)
    ensures |t| == |s|
    ensures forall i :: 0 <= i < |s| ==> !IsUpper(t[i])
    ensures forall i :: 0 <= i < |s| ==> if IsUpper(s[i]) then t[i] as int == s[i] as int + 32 else t[i] == s[i]
  {
    seq(|s|, i requires 0 <= i < |s| => LowerChar(s[i]))
  }

  // Lemmas

  /** Splitting a string that does not contain the separator gives the string itself. */
  lemma SplitWithoutSeparator(s: string, sep: char)
    requires sep !in s
    ensures Split(s, sep) == [s]
  {
  }

  /** A separator directly after a separator-free prefix ends the first part. */
  lemma SplitAtFirstSeparator(a: string, b: string, sep: char)
    requires sep !in a
    ensures Split(a + [sep] + b, sep) == [a] + Split(b, sep)
  {
    var s := a + [sep] + b;
    assert Find(s, sep, 0) == |a| by {
      assert forall i :: 0 <= i < |a| ==> s[i] == a[i];
      assert s[|a|] == sep;
    }
    assert s[..|a|] == a && s[|a| + 1..] == b;
  }

  /** Round trip the other way: splitting a join of separator-free parts gives the parts. */
  lemma {:induction false} SplitOfJoin(parts: seq<string>, sep: char)
    requires |parts| >= 1
    requires forall i :: 0 <= i < |parts| ==> sep !in parts[i]
    ensures Split(Join(parts, sep), sep) == parts
  {
    if |parts| == 1 {
      SplitWithoutSeparator(parts[0], sep);
    } else {
      SplitOfJoin(parts[1..], sep);
      SplitAtFirstSeparator(parts[0], Join(parts[1..], sep), sep);
      assert [parts[0]] + parts[1..] == parts;
    }
  }

  /** Trimming strings that are already trimmed changes nothing. */
  lemma TrimAllOfTrimmed(xs: seq<string>)
    requires forall i :: 0 <= i < |xs| ==> IsTrimmed(xs[i])
    ensures TrimAll(xs) == xs
  {
  }

  lemma ToLowerAppend(a: string, b: string)
    ensures ToLower(a + b) == ToLower(a) + ToLower(b)
  {
  }

  /** Lower-casing keeps white space where it was and adds none. */
  lemma ToLowerKeepsWhitespace(s: string)
    ensures NoWhitespace(s) <==> NoWhitespace(ToLower(s))
  {
    assert forall i :: 0 <= i < |s| ==> ToLower(s)[i] == LowerChar(s[i]);
  }

  /** Trimming a list with one more string in front trims that string in front. */
  lemma TrimAllCons(x: string, xs: seq<string>)
    ensures TrimAll([x] + xs) == [Trim(x)] + TrimAll(xs)
  {
  }

  /** Trimming adds no character: a character absent from every element stays absent. */
  lemma TrimAllKeepsOut(xs: seq<string>, c: char)
    requires forall i :: 0 <= i < |xs| ==> c !in xs[i]
    ensures forall i :: 0 <= i < |xs| ==> c !in TrimAll(xs)[i]
  {
  }

  lemma ToLowerIdempotent(s: string)
    ensures ToLower(ToLower(s)) == ToLower(s)
  {
  }
}
